=== FILE: README.md ===
# Background segmentation controller — a Dafny model

This project models the logic of the Unity background-segmentation package
that does not depend on the engine or the native ONNX plugin:

- the per-frame pipeline of `BgSegController`: a phase counter over
  `[0, model count]` that captures the webcam frame, runs each loaded model
  once in index order and then composites the alpha mask and rewinds;
- the model registry (`LoadModel`), kept in lockstep with one result texture
  per model, and its guards (initialisation, provider index, plugin answer);
- the rule that binds result textures to the compositor shader's slots
  (`_MattingTex`, `_Matting2Tex`, `_DepthTex`);
- the provider-name and model-name helpers (`CollectExecutionProviders`,
  `CollectONNXModels`), with the .NET `String.Replace` and `String.Split`
  semantics they rely on;
- the editor hook that adds the compositor shader to the always-included
  shader list only when it is absent.

The controller is an immutable `State` record; every operation is a pure
function (or a method where `BgSegController` or the editor hook loops) from a state to a new state.
Native inference, GPU readback and blits become events of an abstract trace:
`Capture`, `Infer(i, id)` and `Composite`. The native plugin's answers
(`LoadModel` success, the provider count and names) and the files found in
the model folder are parameters.

Files: `wrappers.dfy` (Option), `text.dfy` (Replace and Split/Join),
`model_info.dfy` (model types and asset record), `shader_slots.dfy` (slot
rule), `discovery.dfy` (provider and model-name lists), `controller.dfy`
(state, Initialize, CleanUp, LoadModel, ProcessImage, frame runs),
`always_included.dfy` (always-included shader list).

Notes on behaviour the model makes explicit:

- The code is a counter over `0..n`, and the phase-0 call falls through: it captures
  AND runs model 0 in the same call. A full cycle therefore takes `max(n, 1)`
  frames, not `n + 1` (`Controller.PipelineCycle`).
- `String.Replace` removes occurrences in one left-to-right pass, so a name
  such as `ExecutionExecutionProviderProvider` still contains the suffix after
  removal. The model states the single pass and proves the practical cases:
  names without the suffix are unchanged, and `XExecutionProvider` becomes `X`
  when `X` does not itself contain `ExecutionProvider`.
- The rewind to phase 0 happens even when the image texture is null; only the
  compositing is skipped.
- `LoadModel` does not check for a negative provider index; the list lookup
  then throws. The model requires a non-negative index once the controller is
  initialised (before that the call returns false without looking).
- `ProcessImage` with non-null textures before the first `Initialize`
  dereferences the missing working textures and throws; the model requires
  the textures to exist for such a call.
- The material keeps its bindings from one compositing pass to the next; a
  slot that no loaded model fills keeps its earlier binding.

## Model

| member | source | states |
|---|---|---|
| `Text.RemoveAll` | Runtime/BgSegController.cs:304 | removing a pattern never lengthens the string, and leaves its length unchanged exactly when the pattern does not occur |
| `Text.RemoveAllAbsent` | Runtime/BgSegController.cs:304 | a string without the pattern is returned unchanged |
| `Text.RemoveAllTrailing` | Runtime/BgSegController.cs:304 | when the pattern's first character does not recur in it and `base` does not itself contain the pattern, stripping it from `base + pattern` gives exactly `base` |
| `Text.Split` | Runtime/BgSegController.cs:282-284 | a split has at least one piece, no piece contains the separator, and the first piece is a prefix of the input |
| `Text.JoinSplit` | Runtime/BgSegController.cs:282-284 | joining the pieces of a split with the separator gives back the input |
| `Text.SplitJoin` | Runtime/BgSegController.cs:282-284 | splitting a join of separator-free pieces gives back the pieces |
| `Text.SplitAtSeparator` | Runtime/BgSegController.cs:282-284 | the split of `a + sep + b` is the split of `a` followed by the split of `b` |
| `Text.FirstPiece` | Runtime/BgSegController.cs:283-284 | the first piece is everything before the first separator |
| `Text.LastPiece` | Runtime/BgSegController.cs:282-283 | the last piece is everything after the last separator |
| `ModelInfo.PluginId` | Runtime/BgSegModelInterface.cs:13-19 | the model type reaches the plugin as an id in 0..3, and id 3 means UNKNOWN |
| `ModelInfo.PluginIdInjective` | Runtime/BgSegModelInterface.cs:13-19 | distinct model types give distinct plugin ids |
| `ModelInfo.IsMattingModel` | Runtime/BgSegController.cs:342-347 | a model is a matting model exactly when its plugin id is 0 (MODNET) or 2 (PP_HUMANSEG) |
| `ModelInfo.IsDepthModel` | Runtime/BgSegController.cs:350-353 | a model is a depth model exactly when its plugin id is 1 (MIDAS) |
| `ModelInfo.KindsAreExclusive` | Runtime/BgSegController.cs:342-353 | no model type is both matting and depth, and UNKNOWN is neither |
| `ShaderSlots.AssignTexToShaderProperty` | Runtime/BgSegController.cs:359-380 | a matting result is bound to `_MattingTex` while the flag is clear (and sets it) and to `_Matting2Tex` once it is set; a depth result is bound to `_DepthTex`; no other slot changes, and a model of another type changes nothing |
| `ShaderSlots.AssignAll` | Runtime/BgSegController.cs:229-233 | after the loop the matting flag is set exactly when it was set before or some matting model was visited |
| `ShaderSlots.PassBindsFirstAndLast` | Runtime/BgSegController.cs:229-233 | a pass with the flag cleared binds the first matting result to `_MattingTex`, the last of two or more to `_Matting2Tex`, the last depth result to `_DepthTex`, and leaves unfilled slots as they were |
| `ShaderSlots.PassNeverBindsDefaultAsset` | Runtime/BgSegModelInfo.cs:12-21 | a model asset whose type is left at the default (UNKNOWN), whatever its file name and tensor size, is never bound to any slot by a compositing pass |
| `ShaderSlots.PassBindsOnlyMatchingKinds` | Runtime/BgSegController.cs:342-380 | every slot a pass changes holds a model of that slot's kind, so an UNKNOWN result is never bound |
| `Discovery.CollectExecutionProviders` | Runtime/BgSegController.cs:292-308 | the new list has exactly the plugin's count of entries (none for a negative count), in plugin order, each the plugin's name with the suffix removed |
| `Discovery.ShortProviderName` | Runtime/BgSegController.cs:304 | the shown name is never longer than the plugin's name, and is exactly as long when the suffix does not occur in it |
| `Discovery.ShortNameDropsSuffix` | Runtime/BgSegController.cs:304 | a provider name `XExecutionProvider` is shown as `X` when `X` does not itself contain `ExecutionProvider` |
| `Discovery.ShortNameKeepsOtherNames` | Runtime/BgSegController.cs:304 | a provider name without the suffix is shown unchanged |
| `Discovery.ModelName` | Runtime/BgSegController.cs:282-285 | a derived model name contains no backslash, dot or underscore |
| `Discovery.ModelNameOfConventionalFile` | Runtime/BgSegController.cs:282-285 | a file `dir\name_tag.ext` (tag and extension optional) yields `name` |
| `Discovery.CollectOnnxModels` | Runtime/BgSegController.cs:268-288 | the path list is the file list, and the name list has one name per file at the same position |
| `AlwaysIncludedShaders.AddIfAbsent` | Editor/PostPackageInstallProcessor.cs:26-60 | earlier entries keep their positions and values, the list grows by at most one, it grows exactly when the shader was found and absent, a found shader is in the result, and nothing else is added |
| `AlwaysIncludedShaders.AddShaderToAlwaysIncluded` | Editor/PostPackageInstallProcessor.cs:26-60 | a missing shader or one already listed leaves the list unchanged; otherwise the shader lands at index `arraySize` and the length grows by one |
| `AlwaysIncludedShaders.AddIfAbsentIdempotent` | Editor/PostPackageInstallProcessor.cs:35-59 | registering the shader twice gives the same list as registering it once |
| `Controller.InitTexture` | Runtime/BgSegController.cs:311-322 | the texture ends at the requested size; an existing texture keeps its format, and one already at that size is left as it is |
| `Controller.InitTextureIdempotent` | Runtime/BgSegController.cs:311-322 | sizing a texture twice to the same size is the same as sizing it once |
| `Controller.Initialize` | Runtime/BgSegController.cs:68-87 | the controller becomes initialised with a rebuilt provider list, working textures of the given size (new ones in RGB24, existing ones keeping their format) and a fresh material (fallback shader when the compositor is missing); every other field, including loaded models, phase, buffers and the matting flag, is kept |
| `Controller.CleanUp` | Runtime/BgSegController.cs:89-93 | the controller is no longer initialised; models, textures, providers and phase are kept |
| `Controller.LoadModel` | Runtime/BgSegController.cs:110-153 | success exactly when initialised, the index is in range and the plugin loads; on failure nothing changes; on success the model and an R8 texture of the input size are appended, keeping the lists in lockstep; the plugin is called only past both guards, with the model's id, file name, tensor size and the selected provider |
| `Controller.CaptureInput` | Runtime/BgSegController.cs:166-189 | the capture phase records the webcam and mask sizes, sizes the output buffer to the mask's pixel count, requests the readback and moves to phase 1; nothing else changes |
| `Controller.RunInference` | Runtime/BgSegController.cs:191-209 | phase p runs model p-1 with its plugin id, resizes that model's result texture to the input size keeping its format, leaves the other textures alone and advances the phase by one |
| `Controller.CompositeAndRewind` | Runtime/BgSegController.cs:211-245 | the phase always returns to 0; with an image target it composites, binds `_MainTex`, binds the results by the first/last slot rule and sets the matting flag exactly when a matting model is loaded; without one nothing else changes |
| `Controller.ProcessImage` | Runtime/BgSegController.cs:162-248 | a null webcam or mask texture changes nothing; otherwise the invariant (lockstep lists, phase within `[0, n]`) is kept and the models, providers and initialisation are untouched |
| `Controller.ProcessImageEvents` | Runtime/BgSegController.cs:164-245 | one call captures exactly when it starts at phase 0, runs only the model the phase selects, composites only after the last model, and gives the next phase |
| `Controller.AtMostOneInference` | Runtime/BgSegController.cs:191-209 | no call runs more than one model |
| `Controller.InferenceFrame` | Runtime/BgSegController.cs:191-245 | a frame at phase p >= 1 runs model p-1 and then either advances to p+1 or, after the last model, composites (with an image target) and rewinds |
| `Controller.CaptureFrame` | Runtime/BgSegController.cs:166-245 | a frame at phase 0 captures, runs model 0 when one is loaded, and with at most one model composites (with an image target) and rewinds, otherwise moves to phase 2 |
| `Controller.Run` | Runtime/BgSegController.cs:162-248 | a run of frames, one call per engine frame, keeps the invariant and the set of loaded models |
| `Controller.CycleFromPhase` | Runtime/BgSegController.cs:191-245 | from phase p >= 1, the next n - p + 1 non-null frames run models p-1..n-1 in order, then composite if the last frame has an image target, and rewind to phase 0 |
| `Controller.PipelineCycle` | Runtime/BgSegController.cs:166-245 | from phase 0, the next max(n, 1) non-null frames capture once, run models 0..n-1 in index order, composite once if the last frame has an image target, and return to phase 0 |
| `Controller.CompositeBindsBySlotRule` | Runtime/BgSegController.cs:211-241 | the compositing frame binds `_MainTex` and the model results by the first/last slot rule and sets the matting flag exactly when a matting model is loaded |
| `Controller.FreshIsValid` | Runtime/BgSegController.cs:16-31 | a new controller satisfies the invariant, starts at phase 0 and is not initialised |

## Left out

- The native plugin (`InitONNXRuntime`, `LoadModel`, `RunModel`, `GetNumProviders`, `GetProviderName`, `LastError`, `CleanUp`): foreign code; its answers are parameters, its calls are trace events or `LoadCall` records.
- Inference failures reported by `RunModel`: they are only logged, so every run is an `Infer` event regardless of the plugin's answer.
- Pixel contents: the asynchronous GPU readback (`AsyncGPUReadback`, `OnReadbackComplete`), `inputData`, `outputData` contents, `LoadRawTextureData`, `Apply` and `Graphics.Blit` are engine rendering APIs with no ordering guarantee; only sizes and events are kept.
- Exceptions the engine raises for mismatched buffer sizes in `LoadRawTextureData` are not modelled. The result texture is sized to the webcam frame while `outputData` is sized to the mask, so a mask with fewer pixels than the webcam frame makes the engine throw before the phase advances: such a controller never gets past its first model and never composites.
- `Controller.PipelineCycle`: describes only frames whose mask has at least as many pixels as the webcam frame; for smaller masks the engine's exception stops the cycle at the first model, which the model does not represent.
- `Controller.CycleFromPhase`: the same restriction as `Controller.PipelineCycle` (a mask with at least as many pixels as the webcam frame).
- `depthEdge0`/`depthEdge1` and the `_DepthEdge0`/`_DepthEdge1` shader floats: only forwarded to the shader.
- `ModelFolder` and `Path.Combine`: depend on compile-time defines and the file system; the load call records the asset's file name instead of the full path.
- `Directory.GetFiles`: the file list is a parameter of `CollectOnnxModels`, which returns the two lists instead of storing them, as nothing else reads them.
- Logging (`Debug.Log*`, `EnableLogging`): no effect on state.
- `GetTexture` and `GetExecutionProviders`: plain accessors.
- The `compositorMaterial != null` and `modelResultTexture.Count > index` guards in `AssignTexToShaderProperty`: always true inside the compositing loop (the material exists once initialised and the loop stays below the count).
- The `isInitialized = false` at the start of `Initialize`: observable only if an engine call throws midway.
- Texture sizes are `nat` and the mask's pixel count is an unbounded product: the engine caps texture sizes far below 32-bit overflow.
- `Controller.LoadModel`: the model asset is a reference type that the controller stores and re-reads every frame; the model copies it by value at load time, so an asset edited after loading (its type changing the id passed to the plugin and the slot chosen) is not represented, and neither is the null-reference exception a null asset raises when its file name is read after both guards.
- `Controller.Initialize`: the `Shader.Find` lookup of the compositor shader is the parameter `compositorFound`.
- `AlwaysIncludedShaders.AddShaderToAlwaysIncluded`: the `Shader.Find` lookup is the parameter `found`, and persisting the changed settings (`ApplyModifiedProperties`, `SaveAssets`) is not modelled; the result list is the settings' new content.
- `Controller.ProcessImage`: a call with non-null textures before the first `Initialize` dereferences the missing working textures and throws; the model requires the textures to exist for such a call and does not represent the exception.
- `Controller.ProcessImage`: the call is a coroutine that yields once after all its work; it is modelled as one atomic step.
- `Editor/PostBuildProcessor.cs` and `Editor/CopyDirectML.cs`: file copy and delete plumbing driven by build hooks.
- `com.halbautomaten.backgroundsegmentation/Runtime/BgSegModelInfo.cs`: an older duplicate of the asset record without the tensor size fields.
- `Discovery.CollectExecutionProviders`: the contract states .NET's single left-to-right pass rather than "no occurrence remains", because the pass can assemble a new occurrence from the pieces around a removed one.

=== FILE: always_included.dfy ===
/**
 * Registration of the compositor shader in the project's list of always
 * included shaders: search the list, append the shader only if absent.
 */
module AlwaysIncludedShaders {
  import opened Wrappers

  /**
   * The list after registering `shader` (`None` when the shader lookup
   * failed): earlier entries keep their positions, the shader ends up in
   * the list, and the list grows, by one, exactly when the shader was
   * found and absent.
   */
  function AddIfAbsent<S(==)>(shaders: seq<S>, shader: Option<S>): (r: seq<S>)
    ensures |r| >= |shaders| && r[..|shaders|] == shaders
    ensures |r| <= |shaders| + 1
    ensures |r| == |shaders| + 1 <==> shader.Some? && shader.value !in shaders
    ensures shader.Some? ==> shader.value in r
    ensures forall x :: x in r ==> x in shaders || shader == Some(x)
  {
    match shader
    case None => shaders
    case Some(s) => if s in shaders then shaders else shaders + [s]
  }

  /**
   * The search-then-append of the editor hook: a linear scan that stops at
   * the first entry equal to the shader, then an insertion at index
   * `arraySize` when none was found.
   */
  method AddShaderToAlwaysIncluded<S(==)>(shaders: seq<S>, found: Option<S>) returns (r: seq<S>)
    ensures found.None? ==> r == shaders
    ensures found.Some? && found.value in shaders ==> r == shaders
    ensures found.Some? && found.value !in shaders ==>
      |r| == |shaders| + 1 && r[..|shaders|] == shaders && r[|shaders|] == found.value
    ensures r == AddIfAbsent(shaders, found)
  {
    if found.None? {
      return shaders;
    }
    var shader := found.value;
    var hasShader := false;
    var i := 0;
    while i < |shaders|
      invariant 0 <= i <= |shaders|
      invariant !hasShader
      invariant shader !in shaders[..i]
    {
      if shader == shaders[i] {
        hasShader := true;
        break;
      }
      i := i + 1;
    }
    if !hasShader {
      assert shaders[..i] == shaders;
      var arrayIndex := |shaders|;
      r := shaders[..arrayIndex] + [shader] + shaders[arrayIndex..];
    } else {
      r := shaders;
    }
  }

  /** Registering twice is the same as registering once. */
  lemma AddIfAbsentIdempotent<S>(shaders: seq<S>, shader: Option<S>)
    ensures AddIfAbsent(AddIfAbsent(shaders, shader), shader) == AddIfAbsent(shaders, shader)
  {
  }
}

=== FILE: controller.dfy ===
/**
 * The per-frame background segmentation controller: a registry of loaded
 * models kept in lockstep with their result textures, and a phase counter
 * that, over successive frames, captures the input, runs each loaded model
 * once in index order, then composites and rewinds.
 *
 * Native inference, GPU readback and texture blits are not modelled as
 * computations; each call reports them as events of an abstract trace.
 */
module Controller {
  import opened Wrappers
  import opened ModelInfo
  import opened ShaderSlots
  import Discovery

  datatype Format = RGB24 | R8

  /** A CPU-side texture, by size and pixel format. */
  datatype Texture = Texture(width: nat, height: nat, format: Format)

  /** A width/height pair (`BgSegController`'s two-element `inputDim`/`outputDim` arrays). */
  datatype Dim = Dim(width: nat, height: nat)

  /** The compositor shader, or the fallback used when it cannot be found. */
  datatype Shader = Compositor | UnlitTexture

  /** The compositing material: its shader, whether `_MainTex` was set, its model slots. */
  datatype Material = Material(shader: Shader, mainTexBound: bool, slots: Slots)

  datatype State = State(
    initialized: bool,
    executionProviders: seq<string>,
    inputDim: Dim,
    outputDim: Dim,
    outputDataLength: nat,
    models: seq<BgSegModelInfo>,
    inputTexture: Option<Texture>,
    outputTexture: Option<Texture>,
    modelResultTexture: seq<Texture>,
    compositorMaterial: Option<Material>,
    processPhase: int,
    haveMattingTex: bool)

  /** A newly constructed controller: nothing loaded, no textures, phase 0. */
  const Fresh: State :=
    State(false, [], Dim(0, 0), Dim(0, 0), 1, [], None, None, [], None, 0, false)

  /** What happened in a call, in order. */
  datatype Event =
    | Capture(input: Dim, output: Dim)   // readback of the webcam frame requested
    | Infer(index: nat, modelId: int)    // the plugin ran loaded model `index`
    | Composite                          // the mask was composited from the results

  /** The three textures handed to one `ProcessImage` call; `None`/false is null. */
  datatype Frame = Frame(webcam: Option<Dim>, imagePresent: bool, mask: Option<Dim>)

  datatype StepResult = StepResult(state: State, events: seq<Event>)

  /** The arguments of a native model-load call. */
  datatype LoadCall = LoadCall(modelId: int, modelName: string, provider: string, tensorWidth: int, tensorHeight: int)

  datatype LoadResult = LoadResult(state: State, success: bool, call: Option<LoadCall>)

  /** `Initialize` has run at least once: working textures and material exist. */
  predicate Created(st: State) {
    st.inputTexture.Some? && st.outputTexture.Some? && st.compositorMaterial.Some?
  }

  /**
   * The invariant every reachable controller keeps: one result texture per
   * loaded model, the phase within `[0, model count]`, and textures present
   * whenever the controller is initialised or holds models.
   */
  predicate Valid(st: State) {
    && |st.models| == |st.modelResultTexture|
    && 0 <= st.processPhase <= |st.models|
    && (st.initialized ==> Created(st))
    && (|st.models| > 0 ==> Created(st))
  }

  predicate NonNull(f: Frame) {
    f.webcam.Some? && f.mask.Some?
  }

  /** Number of inference events in a trace. */
  function InferCount(events: seq<Event>): nat {
    if |events| == 0 then 0
    else (if events[0].Infer? then 1 else 0) + InferCount(events[1..])
  }

  /**
   * Create a texture of the requested size, or resize an existing one in
   * place; resizing keeps the texture's own format.
   */
  function InitTexture(tex: Option<Texture>, width: nat, height: nat, format: Format): (r: Texture)
    ensures r.width == width && r.height == height
    ensures r.format == if tex.Some? then tex.value.format else format
    ensures tex.Some? && tex.value.width == width && tex.value.height == height ==> r == tex.value
  {
    match tex
    case None => Texture(width, height, format)
    case Some(t) => if t.width != width || t.height != height then Texture(width, height, t.format) else t
  }

  /** Sizing an already sized texture again changes nothing. */
  lemma InitTextureIdempotent(tex: Option<Texture>, width: nat, height: nat, format: Format)
    ensures InitTexture(Some(InitTexture(tex, width, height, format)), width, height, format)
         == InitTexture(tex, width, height, format)
  {
  }

  /**
   * Start the runtime: rebuild the provider list from the plugin, size the
   * two RGB24 working textures and make a fresh compositing material. Loaded
   * models, their textures and the phase are kept.
   */
  method Initialize(st: State, width: nat, height: nat, providerCount: int,
                    providerName: nat -> string, compositorFound: bool) returns (st': State)
    requires Valid(st)
    ensures Valid(st') && st'.initialized && Created(st')
    ensures |st'.executionProviders| == if providerCount < 0 then 0 else providerCount
    ensures forall i :: 0 <= i < |st'.executionProviders| ==>
      st'.executionProviders[i] == Discovery.ShortProviderName(providerName(i))
    ensures st'.inputTexture.value.width == width && st'.inputTexture.value.height == height
    ensures st'.outputTexture.value.width == width && st'.outputTexture.value.height == height
    ensures st'.inputTexture.value.format == if st.inputTexture.Some? then st.inputTexture.value.format else RGB24
    ensures st'.outputTexture.value.format == if st.outputTexture.Some? then st.outputTexture.value.format else RGB24
    ensures st'.compositorMaterial == Some(Material(if compositorFound then Compositor else UnlitTexture, false, Unbound))
    ensures st'.models == st.models && st'.modelResultTexture == st.modelResultTexture
    ensures st'.processPhase == st.processPhase
    ensures st' == st.(initialized := true, executionProviders := st'.executionProviders,
                       inputTexture := st'.inputTexture, outputTexture := st'.outputTexture,
                       compositorMaterial := st'.compositorMaterial)
  {
    var providers := Discovery.CollectExecutionProviders(providerCount, providerName);
    var input := InitTexture(st.inputTexture, width, height, RGB24);
    var output := InitTexture(st.outputTexture, width, height, RGB24);
    var shader := if compositorFound then Compositor else UnlitTexture;
    st' := st.(
      initialized := true,
      executionProviders := providers,
      inputTexture := Some(input),
      outputTexture := Some(output),
      compositorMaterial := Some(Material(shader, false, Unbound)));
  }

  /** Release the runtime; everything else, including loaded models, stays. */
  function CleanUp(st: State): (r: State)
    requires Valid(st)
    ensures Valid(r) && !r.initialized
    ensures r.models == st.models && r.modelResultTexture == st.modelResultTexture
    ensures r.processPhase == st.processPhase && r.executionProviders == st.executionProviders
  {
    st.(initialized := false)
  }

  /**
   * Load a model on the selected execution provider. `pluginLoads` is the
   * native loader's answer. A negative provider index is not checked by
   * `BgSegController.LoadModel` and makes the list lookup throw, so it is excluded once the
   * controller is initialised.
   */
  function LoadModel(st: State, modelInfo: BgSegModelInfo, executionProviderIndex: int, pluginLoads: bool): (r: LoadResult)
    requires Valid(st)
    requires st.initialized ==> 0 <= executionProviderIndex
    ensures Valid(r.state)
    ensures r.success <==> st.initialized && executionProviderIndex < |st.executionProviders| && pluginLoads
    ensures !r.success ==> r.state == st
    ensures r.success ==>
      && r.state.models == st.models + [modelInfo]
      && r.state.modelResultTexture == st.modelResultTexture
           + [Texture(st.inputTexture.value.width, st.inputTexture.value.height, R8)]
      && r.state == st.(models := r.state.models, modelResultTexture := r.state.modelResultTexture)
    ensures r.call.Some? <==> st.initialized && executionProviderIndex < |st.executionProviders|
    ensures r.call.Some? ==>
      && r.call.value.modelId == PluginId(modelInfo.onnxModelType)
      && r.call.value.provider == st.executionProviders[executionProviderIndex]
      && r.call.value.modelName == modelInfo.onnxModelName
      && r.call.value.tensorWidth == modelInfo.modelTensorWidth
      && r.call.value.tensorHeight == modelInfo.modelTensorHeight
  {
    if !st.initialized then LoadResult(st, false, None)
    else if executionProviderIndex < |st.executionProviders| then
      var call := LoadCall(PluginId(modelInfo.onnxModelType), modelInfo.onnxModelName,
                           st.executionProviders[executionProviderIndex],
                           modelInfo.modelTensorWidth, modelInfo.modelTensorHeight);
      if !pluginLoads then LoadResult(st, false, Some(call))
      else
        var tex := Texture(st.inputTexture.value.width, st.inputTexture.value.height, R8);
        var st' := st.(models := st.models + [modelInfo],
                       modelResultTexture := st.modelResultTexture + [tex]);
        LoadResult(st', true, Some(call))
    else LoadResult(st, false, None)
  }

  /** Phase 0: record the frame sizes, size the output buffer, request the readback. */
  function CaptureInput(st: State, webcam: Dim, mask: Dim): (r: StepResult)
    requires st.processPhase == 0
    ensures r.state.processPhase == 1
    ensures r.events == [Capture(webcam, mask)]
    ensures r.state.outputDataLength == mask.width * mask.height
    ensures r.state == st.(inputDim := webcam, outputDim := mask,
                           outputDataLength := r.state.outputDataLength, processPhase := 1)
  {
    var st' := st.(inputDim := webcam, outputDim := mask,
                   outputDataLength := mask.width * mask.height,
                   processPhase := st.processPhase + 1);
    StepResult(st', [Capture(webcam, mask)])
  }

  /** Phases 1..n: run model `phase - 1` and size its result texture to the input. */
  function RunInference(st: State): (r: StepResult)
    requires 1 <= st.processPhase <= |st.models| == |st.modelResultTexture|
    ensures r.state.processPhase == st.processPhase + 1
    ensures r.state.models == st.models && |r.state.modelResultTexture| == |st.modelResultTexture|
    ensures var i := st.processPhase - 1;
      r.events == [Infer(i, PluginId(st.models[i].onnxModelType))]
    ensures var i := st.processPhase - 1;
      && r.state.modelResultTexture[i].width == st.inputDim.width
      && r.state.modelResultTexture[i].height == st.inputDim.height
      && r.state.modelResultTexture[i].format == st.modelResultTexture[i].format
      && (forall j :: 0 <= j < |st.modelResultTexture| && j != i ==>
            r.state.modelResultTexture[j] == st.modelResultTexture[j])
    ensures r.state == st.(modelResultTexture := r.state.modelResultTexture, processPhase := r.state.processPhase)
  {
    var i := st.processPhase - 1;
    var tex := InitTexture(Some(st.modelResultTexture[i]), st.inputDim.width, st.inputDim.height, R8);
    var st' := st.(modelResultTexture := st.modelResultTexture[i := tex],
                   processPhase := st.processPhase + 1);
    StepResult(st', [Infer(i, PluginId(st.models[i].onnxModelType))])
  }

  /**
   * After the last model: when an image target exists, bind the input and
   * every result texture to the material (the matting flag cleared first)
   * and composite; in every case rewind to phase 0.
   */
  function CompositeAndRewind(st: State, imagePresent: bool): (r: StepResult)
    requires Created(st) && |st.models| == |st.modelResultTexture|
    ensures r.state.processPhase == 0
    ensures r.events == if imagePresent then [Composite] else []
    ensures !imagePresent ==> r.state == st.(processPhase := 0)
    ensures imagePresent ==> r.state.compositorMaterial.Some?
    ensures imagePresent ==>
      r.state == st.(compositorMaterial := r.state.compositorMaterial,
                     haveMattingTex := r.state.haveMattingTex, processPhase := 0)
    ensures imagePresent ==>
      var n := |st.models|;
      var before := st.compositorMaterial.value.slots;
      var m := r.state.compositorMaterial.value;
      var first := FirstWith(st.models, n, Matting);
      var last := LastWith(st.models, n, Matting);
      var depth := LastWith(st.models, n, Depth);
      && m.shader == st.compositorMaterial.value.shader
      && m.mainTexBound
      && r.state.haveMattingTex == first.Some?
      && m.slots.matting == (if first.Some? then first else before.matting)
      && m.slots.matting2 == (if first != last then last else before.matting2)
      && m.slots.depth == (if depth.Some? then depth else before.depth)
    ensures r.state.models == st.models && r.state.modelResultTexture == st.modelResultTexture
  {
    PassBindsFirstAndLast(st.models, |st.models|, st.compositorMaterial.value.slots);
    if imagePresent then
      var m := st.compositorMaterial.value;
      var pass := AssignAll(st.models, |st.modelResultTexture|, Binding(m.slots, false));
      var st' := st.(compositorMaterial := Some(Material(m.shader, true, pass.slots)),
                     haveMattingTex := pass.haveMattingTex,
                     processPhase := 0);
      StepResult(st', [Composite])
    else
      StepResult(st.(processPhase := 0), [])
  }

  /**
   * One frame of the pipeline. A null webcam or mask texture makes the call
   * do nothing. Otherwise the phase falls through capture, inference and
   * compositing in that order, so one call can do all three. Such a call
   * before the first `Initialize` would dereference the missing working
   * textures, hence the second precondition.
   */
  function ProcessImage(st: State, frame: Frame): (r: StepResult)
    requires Valid(st)
    requires NonNull(frame) ==> Created(st)
    ensures Valid(r.state)
    ensures !NonNull(frame) ==> r.state == st && r.events == []
    ensures r.state.models == st.models && r.state.executionProviders == st.executionProviders
    ensures r.state.initialized == st.initialized
    ensures Created(st) ==> Created(r.state)
  {
    if !NonNull(frame) then StepResult(st, [])
    else
      var n := |st.models|;
      var c := if st.processPhase == 0 then CaptureInput(st, frame.webcam.value, frame.mask.value)
               else StepResult(st, []);
      var i := if 1 <= c.state.processPhase <= n then RunInference(c.state)
               else StepResult(c.state, []);
      var f := if n == 0 || i.state.processPhase > n then CompositeAndRewind(i.state, frame.imagePresent)
               else StepResult(i.state, []);
      StepResult(f.state, c.events + i.events + f.events)
  }

  /**
   * What one non-null call does, by starting phase: phase 0 captures and
   * then falls through; at most one model runs, the one the phase selects;
   * compositing happens only after the last model and always rewinds.
   */
  lemma ProcessImageEvents(st: State, frame: Frame)
    requires Valid(st) && NonNull(frame) && Created(st)
    ensures var r := ProcessImage(st, frame);
      var n := |st.models|;
      var k := if st.processPhase == 0 then 0 else st.processPhase - 1;
      var capture := if st.processPhase == 0 then [Capture(frame.webcam.value, frame.mask.value)] else [];
      var infer := if k < n then [Infer(k, PluginId(st.models[k].onnxModelType))] else [];
      var done := k + 1 >= n;
      && r.events == capture + infer + (if done && frame.imagePresent then [Composite] else [])
      && r.state.processPhase == (if done then 0 else k + 2)
  {
  }

  /** No call runs more than one model. */
  lemma AtMostOneInference(st: State, frame: Frame)
    requires Valid(st) && (NonNull(frame) ==> Created(st))
    ensures InferCount(ProcessImage(st, frame).events) <= 1
  {
    if NonNull(frame) {
      ProcessImageEvents(st, frame);
      var r := ProcessImage(st, frame);
      var k := if st.processPhase == 0 then 0 else st.processPhase - 1;
      var capture := if st.processPhase == 0 then [Capture(frame.webcam.value, frame.mask.value)] else [];
      var infer := if k < |st.models| then [Infer(k, PluginId(st.models[k].onnxModelType))] else [];
      var tail := if k + 1 >= |st.models| && frame.imagePresent then [Composite] else [];
      InferCountAppend(capture, infer);
      InferCountAppend(capture + infer, tail);
      assert InferCount(tail) == 0;
    }
  }

  lemma {:induction false} InferCountAppend(a: seq<Event>, b: seq<Event>)
    ensures InferCount(a + b) == InferCount(a) + InferCount(b)
    decreases |a|
  {
    if |a| > 0 {
      assert (a + b)[1..] == a[1..] + b;
      InferCountAppend(a[1..], b);
    } else {
      assert a + b == b;
    }
  }

  /** A run of successive frames, as the host's per-frame coroutine drives it. */
  function Run(st: State, frames: seq<Frame>): (r: StepResult)
    requires Valid(st) && Created(st)
    ensures Valid(r.state) && Created(r.state)
    ensures r.state.models == st.models
    decreases |frames|
  {
    if |frames| == 0 then StepResult(st, [])
    else
      var first := ProcessImage(st, frames[0]);
      var rest := Run(first.state, frames[1..]);
      StepResult(rest.state, first.events + rest.events)
  }

  /** Reference trace: models `from .. n-1` each run once, in index order. */
  function Inferences(models: seq<BgSegModelInfo>, from: nat): (r: seq<Event>)
    ensures |r| == if from < |models| then |models| - from else 0
    decreases |models| - from
  {
    if from >= |models| then []
    else [Infer(from, PluginId(models[from].onnxModelType))] + Inferences(models, from + 1)
  }

  /** The trace's tail: a composite when the last frame has an image target. */
  function Finish(frames: seq<Frame>): seq<Event>
    requires |frames| > 0
  {
    if frames[|frames| - 1].imagePresent then [Composite] else []
  }

  /** One frame in the middle of a cycle: phase `p >= 1` runs model `p-1`. */
  lemma InferenceFrame(st: State, frame: Frame)
    requires Valid(st) && Created(st) && NonNull(frame)
    requires 1 <= st.processPhase <= |st.models|
    ensures var r := ProcessImage(st, frame);
      var p := st.processPhase;
      && Valid(r.state) && Created(r.state) && r.state.models == st.models
      && r.events == [Infer(p - 1, PluginId(st.models[p - 1].onnxModelType))]
                     + (if p == |st.models| && frame.imagePresent then [Composite] else [])
      && r.state.processPhase == (if p == |st.models| then 0 else p + 1)
  {
    ProcessImageEvents(st, frame);
  }

  /** The first frame of a cycle: capture, then model 0 when there is one. */
  lemma CaptureFrame(st: State, frame: Frame)
    requires Valid(st) && Created(st) && NonNull(frame) && st.processPhase == 0
    ensures var r := ProcessImage(st, frame);
      var n := |st.models|;
      && Valid(r.state) && Created(r.state) && r.state.models == st.models
      && r.events == [Capture(frame.webcam.value, frame.mask.value)]
                     + (if n > 0 then [Infer(0, PluginId(st.models[0].onnxModelType))] else [])
                     + (if n <= 1 && frame.imagePresent then [Composite] else [])
      && r.state.processPhase == (if n <= 1 then 0 else 2)
  {
    ProcessImageEvents(st, frame);
  }

  /** A run is its first frame's step followed by the run of the rest. */
  lemma RunFirst(st: State, frames: seq<Frame>)
    requires Valid(st) && Created(st) && |frames| > 0
    ensures var first := ProcessImage(st, frames[0]);
      var rest := Run(first.state, frames[1..]);
      Run(st, frames) == StepResult(rest.state, first.events + rest.events)
  {
  }

  /** From phase `p >= 1`, the remaining frames run models `p-1 .. n-1`, then composite. */
  lemma {:induction false} CycleFromPhase(st: State, frames: seq<Frame>)
    requires Valid(st) && Created(st)
    requires 1 <= st.processPhase <= |st.models|
    requires |frames| == |st.models| - st.processPhase + 1
    requires forall i :: 0 <= i < |frames| ==> NonNull(frames[i])
    ensures Run(st, frames).state.processPhase == 0
    ensures Run(st, frames).events == Inferences(st.models, st.processPhase - 1) + Finish(frames)
    decreases |frames|
  {
    var p := st.processPhase;
    InferenceFrame(st, frames[0]);
    RunFirst(st, frames);
    var first := ProcessImage(st, frames[0]);
    var rest := Run(first.state, frames[1..]);
    var infer := [Infer(p - 1, PluginId(st.models[p - 1].onnxModelType))];
    assert Inferences(st.models, p - 1) == infer + Inferences(st.models, p);
    if |frames| == 1 {
      assert rest == StepResult(first.state, []);
      assert Inferences(st.models, p) == [];
      assert first.events == infer + Finish(frames);
    } else {
      assert NonNull(frames[1]);
      CycleFromPhase(first.state, frames[1..]);
      assert frames[1..][|frames[1..]| - 1] == frames[|frames| - 1];
      assert Finish(frames[1..]) == Finish(frames);
      assert first.events == infer;
      assert rest.events == Inferences(st.models, p) + Finish(frames);
    }
  }

  /**
   * A full pipeline cycle: from phase 0 with n models loaded, the next
   * max(n, 1) non-null frames capture once, run models 0..n-1 in index
   * order, composite once if the last frame has an image target, and
   * leave the controller back at phase 0.
   */
  lemma {:induction false} PipelineCycle(st: State, frames: seq<Frame>)
    requires Valid(st) && Created(st) && st.processPhase == 0
    requires |frames| == if |st.models| == 0 then 1 else |st.models|
    requires forall i :: 0 <= i < |frames| ==> NonNull(frames[i])
    ensures Run(st, frames).state.processPhase == 0
    ensures Run(st, frames).events ==
      [Capture(frames[0].webcam.value, frames[0].mask.value)] + Inferences(st.models, 0) + Finish(frames)
  {
    CaptureFrame(st, frames[0]);
    RunFirst(st, frames);
    var first := ProcessImage(st, frames[0]);
    var rest := Run(first.state, frames[1..]);
    var capture := [Capture(frames[0].webcam.value, frames[0].mask.value)];
    var n := |st.models|;
    if n <= 1 {
      assert rest == StepResult(first.state, []);
      if n == 1 {
        assert Inferences(st.models, 1) == [];
        assert Inferences(st.models, 0) == [Infer(0, PluginId(st.models[0].onnxModelType))];
      }
      assert first.events == capture + Inferences(st.models, 0) + Finish(frames);
    } else {
      assert NonNull(frames[1]);
      CycleFromPhase(first.state, frames[1..]);
      assert frames[1..][|frames[1..]| - 1] == frames[|frames| - 1];
      assert Finish(frames[1..]) == Finish(frames);
      var infer := [Infer(0, PluginId(st.models[0].onnxModelType))];
      assert first.events == capture + infer;
      assert Inferences(st.models, 0) == infer + Inferences(st.models, 1);
      assert rest.events == Inferences(st.models, 1) + Finish(frames);
    }
  }

  /**
   * The compositing frame binds the result textures by the slot rule: first
   * matting result to `_MattingTex`, the last of two or more to
   * `_Matting2Tex`, the last depth result to `_DepthTex`; other slots keep
   * their earlier binding, and the matting flag reports whether any
   * matting model is loaded.
   */
  lemma CompositeBindsBySlotRule(st: State, frame: Frame)
    requires Valid(st) && Created(st) && NonNull(frame)
    requires Composite in ProcessImage(st, frame).events
    ensures var r := ProcessImage(st, frame).state;
      var before := st.compositorMaterial.value.slots;
      var after := r.compositorMaterial.value.slots;
      var n := |st.models|;
      var first := FirstWith(st.models, n, Matting);
      var last := LastWith(st.models, n, Matting);
      var depth := LastWith(st.models, n, Depth);
      && r.compositorMaterial.value.mainTexBound
      && r.haveMattingTex == first.Some?
      && after.matting == (if first.Some? then first else before.matting)
      && after.matting2 == (if first != last then last else before.matting2)
      && after.depth == (if depth.Some? then depth else before.depth)
  {
    ProcessImageEvents(st, frame);
    PassBindsFirstAndLast(st.models, |st.models|, st.compositorMaterial.value.slots);
  }

  /** A freshly constructed controller satisfies the invariant. */
  lemma FreshIsValid()
    ensures Valid(Fresh) && Fresh.processPhase == 0 && !Fresh.initialized
  {
  }
}

=== FILE: discovery.dfy ===
/**
 * The two lists the controller builds from what the plugin and the model
 * folder report: execution provider names and ONNX model names.
 */
module Discovery {
  import opened Text

  /** The suffix every ONNX Runtime provider name carries, e.g. "CPUExecutionProvider". */
  const ProviderSuffix: string := "ExecutionProvider"

  /** The display name of one provider: every occurrence of the suffix removed. */
  function ShortProviderName(name: string): (r: string)
    ensures |r| <= |name|
    ensures |r| == |name| <==> !Occurs(ProviderSuffix, name)
  {
    RemoveAll(name, ProviderSuffix)
  }

  /**
   * Rebuild the provider list from the plugin: ask for the count, then for
   * each name in plugin order. A negative count gives an empty list, as the
   * counting loop does not run.
   */
  method CollectExecutionProviders(count: int, providerName: nat -> string) returns (providers: seq<string>)
    ensures |providers| == if count < 0 then 0 else count
    ensures forall i :: 0 <= i < |providers| ==> providers[i] == ShortProviderName(providerName(i))
  {
    providers := [];
    var i := 0;
    while i < count
      invariant 0 <= i
      invariant i <= count || i == 0
      invariant |providers| == i
      invariant forall j :: 0 <= j < i ==> providers[j] == ShortProviderName(providerName(j))
    {
      providers := providers + [ShortProviderName(providerName(i))];
      i := i + 1;
    }
  }

  /** "CUDAExecutionProvider" becomes "CUDA": the suffix goes and the rest stays. */
  lemma ShortNameDropsSuffix(base: string)
    requires !Occurs(ProviderSuffix, base)
    ensures ShortProviderName(base + ProviderSuffix) == base
  {
    assert ProviderSuffix[1..] == "xecutionProvider";
    RemoveAllTrailing(base, ProviderSuffix);
  }

  /** A name that does not mention the suffix is shown as it is. */
  lemma ShortNameKeepsOtherNames(name: string)
    requires !Occurs(ProviderSuffix, name)
    ensures ShortProviderName(name) == name
  {
    RemoveAllAbsent(name, ProviderSuffix);
  }

  /**
   * The model name of a file path: the part after the last backslash, cut
   * at the first '.', then cut at the first '_'.
   */
  function ModelName(file: string): (name: string)
    ensures '\\' !in name && '.' !in name && '_' !in name
  {
    var path := Split(file, '\\');
    var fileName := Split(path[|path| - 1], '.')[0];
    var name := Split(fileName, '_')[0];
    assert forall i :: 0 <= i < |fileName| ==> fileName[i] == path[|path| - 1][i];
    assert forall i :: 0 <= i < |name| ==> name[i] == fileName[i];
    name
  }

  /**
   * A file named `<dir>\<name>_<tag>.<ext>` (with the tag and extension each
   * optional) yields `<name>`, e.g. "Models\modnet_portrait.onnx" yields "modnet".
   */
  lemma ModelNameOfConventionalFile(dir: string, name: string, tag: string, ext: string)
    requires dir == [] || dir[|dir| - 1] == '\\'
    requires '\\' !in name && '.' !in name && '_' !in name
    requires tag == [] || tag[0] == '_'
    requires '\\' !in tag && '.' !in tag
    requires ext == [] || ext[0] == '.'
    requires '\\' !in ext
    ensures ModelName(dir + name + tag + ext) == name
  {
    var fileName := name + tag + ext;
    assert dir + name + tag + ext == dir + fileName;
    assert '\\' !in fileName;
    LastPiece(dir, fileName, '\\');
    assert fileName == (name + tag) + ext;
    assert '.' !in name + tag;
    FirstPiece(name + tag, ext, '.');
    FirstPiece(name, tag, '_');
  }

  /**
   * Rebuild the model lists from the files found in the model folder: the
   * paths as found, and each file's model name at the same position.
   */
  method CollectOnnxModels(files: seq<string>) returns (modelPaths: seq<string>, modelNames: seq<string>)
    ensures modelPaths == files
    ensures |modelNames| == |files|
    ensures forall i :: 0 <= i < |files| ==> modelNames[i] == ModelName(files[i])
  {
    modelPaths := [];
    modelNames := [];
    for i := 0 to |files|
      invariant modelPaths == files[..i]
      invariant |modelNames| == i
      invariant forall j :: 0 <= j < i ==> modelNames[j] == ModelName(files[j])
    {
      modelPaths := modelPaths + [files[i]];
      modelNames := modelNames + [ModelName(files[i])];
    }
  }
}

=== FILE: model_info.dfy ===
/**
 * The configuration record of one ONNX model and the model types the
 * native plugin knows.
 */
module ModelInfo {

  /** The model types, in declaration order; the order is the plugin's model id. */
  datatype Models = MODNET | MIDAS | PP_HUMANSEG | UNKNOWN

  /** The integer the enum value is cast to before it crosses into the plugin. */
  function PluginId(m: Models): (id: int)
    ensures 0 <= id <= 3
    ensures id == 3 <==> m == UNKNOWN
  {
    match m
    case MODNET => 0
    case MIDAS => 1
    case PP_HUMANSEG => 2
    case UNKNOWN => 3
  }

  /** Distinct model types reach the plugin as distinct ids. */
  lemma PluginIdInjective(a: Models, b: Models)
    ensures PluginId(a) == PluginId(b) ==> a == b
  {
  }

  /** One model asset: file name, type and input tensor size. */
  datatype BgSegModelInfo = BgSegModelInfo(
    onnxModelName: string,
    onnxModelType: Models,
    modelTensorWidth: int,
    modelTensorHeight: int)

  /** The field values a freshly created asset carries. */
  const DefaultModelInfo: BgSegModelInfo :=
    BgSegModelInfo("model_file.onnx", UNKNOWN, 512, 512)

  /** Models whose result is a matting (foreground alpha) image. */
  predicate IsMattingModel(info: BgSegModelInfo)
    ensures IsMattingModel(info) <==> PluginId(info.onnxModelType) == 0 || PluginId(info.onnxModelType) == 2
  {
    info.onnxModelType == MODNET || info.onnxModelType == PP_HUMANSEG
  }

  /** Models whose result is a depth image. */
  predicate IsDepthModel(info: BgSegModelInfo)
    ensures IsDepthModel(info) <==> PluginId(info.onnxModelType) == 1
  {
    info.onnxModelType == MIDAS
  }

  /** No model type is both matting and depth, and UNKNOWN is neither. */
  lemma KindsAreExclusive(info: BgSegModelInfo)
    ensures !(IsMattingModel(info) && IsDepthModel(info))
    ensures info.onnxModelType == UNKNOWN ==> !IsMattingModel(info) && !IsDepthModel(info)
  {
  }
}

=== FILE: shader_slots.dfy ===
/**
 * The rule that binds model result textures to the compositor shader's
 * texture properties: the first matting result goes to `_MattingTex`,
 * later matting results to `_Matting2Tex`, depth results to `_DepthTex`.
 */
module ShaderSlots {
  import opened Wrappers
  import opened ModelInfo

  /**
   * What each texture property of the material currently holds, as the
   * index of the model result texture bound to it.
   */
  datatype Slots = Slots(matting: Option<nat>, matting2: Option<nat>, depth: Option<nat>)

  /** A material that has never been given a model result texture. */
  const Unbound: Slots := Slots(None, None, None)

  /** The material's slots together with the controller's `haveMattingTex` flag. */
  datatype Binding = Binding(slots: Slots, haveMattingTex: bool)

  /** The two kinds of result the compositor consumes. */
  datatype Role = Matting | Depth

  predicate HasRole(info: BgSegModelInfo, role: Role) {
    match role
    case Matting => IsMattingModel(info)
    case Depth => IsDepthModel(info)
  }

  /** No model among `models[lo..hi]` has the role. */
  ghost predicate NoneWith(models: seq<BgSegModelInfo>, lo: nat, hi: nat, role: Role)
    requires lo <= hi <= |models|
  {
    forall i :: lo <= i < hi ==> !HasRole(models[i], role)
  }

  /** Reference definition: the lowest index below `k` whose model has the role. */
  function FirstWith(models: seq<BgSegModelInfo>, k: nat, role: Role): (r: Option<nat>)
    requires k <= |models|
    ensures r.Some? ==> r.value < k && HasRole(models[r.value], role) && NoneWith(models, 0, r.value, role)
    ensures r.None? ==> NoneWith(models, 0, k, role)
  {
    if k == 0 then None
    else
      var earlier := FirstWith(models, k - 1, role);
      if earlier.Some? then earlier
      else if HasRole(models[k - 1], role) then Some(k - 1)
      else None
  }

  /** Reference definition: the highest index below `k` whose model has the role. */
  function LastWith(models: seq<BgSegModelInfo>, k: nat, role: Role): (r: Option<nat>)
    requires k <= |models|
    ensures r.Some? ==> r.value < k && HasRole(models[r.value], role) && NoneWith(models, r.value + 1, k, role)
    ensures r.None? ==> NoneWith(models, 0, k, role)
  {
    if k == 0 then None
    else if HasRole(models[k - 1], role) then Some(k - 1)
    else LastWith(models, k - 1, role)
  }

  /**
   * Bind result texture `index` according to its model's type: a matting
   * result fills `_MattingTex` while the flag is clear and `_Matting2Tex`
   * once it is set, a depth result fills `_DepthTex`. No other slot changes,
   * and a model of another type changes nothing.
   */
  function AssignTexToShaderProperty(b: Binding, models: seq<BgSegModelInfo>, index: nat): (r: Binding)
    requires index < |models|
    ensures r.haveMattingTex <==> b.haveMattingTex || IsMattingModel(models[index])
    ensures IsMattingModel(models[index]) && !b.haveMattingTex ==> r.slots.matting == Some(index)
    ensures IsMattingModel(models[index]) && b.haveMattingTex ==> r.slots.matting2 == Some(index)
    ensures IsDepthModel(models[index]) ==> r.slots.depth == Some(index)
    ensures r.slots.matting != b.slots.matting ==>
      r.slots.matting == Some(index) && IsMattingModel(models[index]) && !b.haveMattingTex
    ensures r.slots.matting2 != b.slots.matting2 ==>
      r.slots.matting2 == Some(index) && IsMattingModel(models[index]) && b.haveMattingTex
    ensures r.slots.depth != b.slots.depth ==>
      r.slots.depth == Some(index) && IsDepthModel(models[index])
    ensures !IsMattingModel(models[index]) && !IsDepthModel(models[index]) ==> r == b
  {
    var info := models[index];
    if IsMattingModel(info) then
      if !b.haveMattingTex then Binding(b.slots.(matting := Some(index)), true)
      else b.(slots := b.slots.(matting2 := Some(index)))
    else if IsDepthModel(info) then
      b.(slots := b.slots.(depth := Some(index)))
    else b
  }

  /** The compositing loop over result textures `0 .. k-1`, in index order. */
  function AssignAll(models: seq<BgSegModelInfo>, k: nat, start: Binding): (r: Binding)
    requires k <= |models|
    ensures r.haveMattingTex <==> start.haveMattingTex || FirstWith(models, k, Matting).Some?
  {
    if k == 0 then start
    else AssignTexToShaderProperty(AssignAll(models, k - 1, start), models, k - 1)
  }

  /**
   * One compositing pass, which starts with the flag cleared: `_MattingTex`
   * gets the first matting result, `_Matting2Tex` the last one when there
   * are at least two, `_DepthTex` the last depth result; a slot with no
   * such model keeps whatever the material held before.
   */
  lemma {:induction false} PassBindsFirstAndLast(models: seq<BgSegModelInfo>, k: nat, before: Slots)
    requires k <= |models|
    ensures var r := AssignAll(models, k, Binding(before, false));
      var first := FirstWith(models, k, Matting);
      var last := LastWith(models, k, Matting);
      && r.haveMattingTex == first.Some?
      && r.slots.matting == (if first.Some? then first else before.matting)
      && r.slots.matting2 == (if first != last then last else before.matting2)
      && r.slots.depth == (if LastWith(models, k, Depth).Some? then LastWith(models, k, Depth) else before.depth)
  {
    if k > 0 {
      PassBindsFirstAndLast(models, k - 1, before);
      var m := models[k - 1];
      if IsMattingModel(m) {
        assert LastWith(models, k, Matting) == Some(k - 1);
        assert !IsDepthModel(m);
      } else if IsDepthModel(m) {
        assert LastWith(models, k, Depth) == Some(k - 1);
      }
    }
  }

  /**
   * Whatever a compositing pass changes is bound to a model of the slot's
   * kind; in particular an UNKNOWN model's result is never bound.
   */
  lemma PassBindsOnlyMatchingKinds(models: seq<BgSegModelInfo>, before: Slots)
    ensures var r := AssignAll(models, |models|, Binding(before, false));
      && (r.slots.matting != before.matting ==>
            r.slots.matting.Some? && r.slots.matting.value < |models| && IsMattingModel(models[r.slots.matting.value]))
      && (r.slots.matting2 != before.matting2 ==>
            r.slots.matting2.Some? && r.slots.matting2.value < |models| && IsMattingModel(models[r.slots.matting2.value]))
      && (r.slots.depth != before.depth ==>
            r.slots.depth.Some? && r.slots.depth.value < |models| && IsDepthModel(models[r.slots.depth.value]))
  {
    PassBindsFirstAndLast(models, |models|, before);
  }

  /**
   * A model asset whose type is left at the default (UNKNOWN) loads, whatever
   * its other fields, but its result texture is never bound to any slot by a
   * compositing pass.
   */
  lemma PassNeverBindsDefaultAsset(models: seq<BgSegModelInfo>, before: Slots, j: nat)
    requires j < |models| && models[j].onnxModelType == DefaultModelInfo.onnxModelType
    ensures var r := AssignAll(models, |models|, Binding(before, false));
      && (r.slots.matting != before.matting ==> r.slots.matting != Some(j))
      && (r.slots.matting2 != before.matting2 ==> r.slots.matting2 != Some(j))
      && (r.slots.depth != before.depth ==> r.slots.depth != Some(j))
  {
    PassBindsOnlyMatchingKinds(models, before);
  }
}

=== FILE: text.dfy ===
/**
 * The two string operations of the .NET base library that the controller
 * relies on: `String.Replace(pattern, "")` (ordinal, one left-to-right pass)
 * and `String.Split(char)`.
 */
module Text {

  /** True when `pat` occurs as a contiguous piece of `s`. */
  predicate Occurs(pat: string, s: string)
    decreases |s|
  {
    |s| >= |pat| && (s[..|pat|] == pat || Occurs(pat, s[1..]))
  }

  /**
   * `s.Replace(pat, "")`: scan from the left, drop every occurrence found,
   * resume the scan after it. A non-empty pattern is required, as .NET
   * throws for an empty one.
   */
  function RemoveAll(s: string, pat: string): (r: string)
    requires |pat| > 0
    ensures |r| <= |s|
    ensures |r| == |s| <==> !Occurs(pat, s)
    decreases |s|
  {
    if |s| < |pat| then s
    else if s[..|pat|] == pat then RemoveAll(s[|pat|..], pat)
    else [s[0]] + RemoveAll(s[1..], pat)
  }

  /** A string without an occurrence of the pattern passes through unchanged. */
  lemma {:induction false} RemoveAllAbsent(s: string, pat: string)
    requires |pat| > 0
    requires !Occurs(pat, s)
    ensures RemoveAll(s, pat) == s
    decreases |s|
  {
    if |s| >= |pat| {
      assert s[..|pat|] != pat;
      RemoveAllAbsent(s[1..], pat);
      assert [s[0]] + s[1..] == s;
    }
  }

  /**
   * When the pattern's first character does not recur inside it, an
   * occurrence cannot start inside `base` and run into the appended copy;
   * so stripping a trailing pattern gives back exactly the part before it.
   */
  lemma {:induction false} RemoveAllTrailing(base: string, pat: string)
    requires |pat| > 0
    requires pat[0] !in pat[1..]
    requires !Occurs(pat, base)
    ensures RemoveAll(base + pat, pat) == base
    decreases |base|
  {
    var s := base + pat;
    if |base| == 0 {
      assert s == pat;
      assert s[|pat|..] == [];
    } else {
      NoMatchBeforeTrailing(base, pat);
      assert !Occurs(pat, base[1..]);
      RemoveAllTrailing(base[1..], pat);
      assert s[1..] == base[1..] + pat;
      assert [s[0]] + base[1..] == base;
    }
  }

  /** The helper of `RemoveAllTrailing`: the scan does not match at position 0. */
  lemma NoMatchBeforeTrailing(base: string, pat: string)
    requires |pat| > 0 && |base| > 0
    requires pat[0] !in pat[1..]
    requires !Occurs(pat, base)
    ensures (base + pat)[..|pat|] != pat
  {
    var s := base + pat;
    if |base| >= |pat| {
      assert s[..|pat|] == base[..|pat|];
    } else {
      assert pat[|base|] == pat[1..][|base| - 1];
      assert s[..|pat|][|base|] == pat[0] != pat[|base|];
    }
  }

  /**
   * `s.Split(sep)`: the pieces between separators, in order, always at
   * least one (an empty string splits into one empty piece).
   */
  function Split(s: string, sep: char): (parts: seq<string>)
    ensures |parts| >= 1
    ensures forall i :: 0 <= i < |parts| ==> sep !in parts[i]
    ensures parts[0] <= s
  {
    if |s| == 0 then [[]]
    else
      var tail := Split(s[1..], sep);
      if s[0] == sep then [[]] + tail
      else [[s[0]] + tail[0]] + tail[1..]
  }

  /** `String.Join(sep, parts)`, the inverse of `Split`. */
  function Join(parts: seq<string>, sep: char): (s: string)
    requires |parts| >= 1
    ensures |s| >= |parts| - 1
    decreases |parts|
  {
    if |parts| == 1 then parts[0]
    else parts[0] + [sep] + Join(parts[1..], sep)
  }

  /** Splitting and joining again loses nothing. */
  lemma {:induction false} JoinSplit(s: string, sep: char)
    ensures Join(Split(s, sep), sep) == s
    decreases |s|
  {
    if |s| > 0 {
      var tail := Split(s[1..], sep);
      JoinSplit(s[1..], sep);
      if s[0] == sep {
        assert ([[]] + tail)[1..] == tail;
        assert [s[0]] + s[1..] == s;
      } else {
        var parts := [[s[0]] + tail[0]] + tail[1..];
        if |tail| == 1 {
          assert Join(tail, sep) == tail[0];
          assert [s[0]] + s[1..] == s;
        } else {
          assert parts[1..] == tail[1..];
          assert Join(tail, sep) == tail[0] + [sep] + Join(tail[1..], sep);
          assert Join(parts, sep) == [s[0]] + tail[0] + [sep] + Join(tail[1..], sep);
          assert [s[0]] + s[1..] == s;
        }
      }
    }
  }

  /** A string without the separator is a single piece. */
  lemma {:induction false} SplitWithoutSeparator(s: string, sep: char)
    requires sep !in s
    ensures Split(s, sep) == [s]
    decreases |s|
  {
    if |s| > 0 {
      assert sep !in s[1..];
      SplitWithoutSeparator(s[1..], sep);
      assert [s[0]] + s[1..] == s;
    }
  }

  /** A separator cuts the split into the split of each side. */
  lemma {:induction false} SplitAtSeparator(a: string, b: string, sep: char)
    ensures Split(a + [sep] + b, sep) == Split(a, sep) + Split(b, sep)
    decreases |a|
  {
    var s := a + [sep] + b;
    if |a| == 0 {
      assert s == [sep] + b;
      assert s[1..] == b;
    } else {
      assert s[0] == a[0];
      assert s[1..] == a[1..] + [sep] + b;
      SplitAtSeparator(a[1..], b, sep);
      var ta := Split(a[1..], sep);
      var tb := Split(b, sep);
      assert Split(s[1..], sep) == ta + tb;
      if a[0] == sep {
        assert Split(s, sep) == [[]] + (ta + tb);
        assert Split(a, sep) == [[]] + ta;
      } else {
        assert Split(s, sep) == [[a[0]] + (ta + tb)[0]] + (ta + tb)[1..];
        assert (ta + tb)[0] == ta[0];
        assert (ta + tb)[1..] == ta[1..] + tb;
        assert Split(a, sep) == [[a[0]] + ta[0]] + ta[1..];
      }
    }
  }

  /** Joining separator-free pieces and splitting again recovers the pieces. */
  lemma {:induction false} SplitJoin(parts: seq<string>, sep: char)
    requires |parts| >= 1
    requires forall i :: 0 <= i < |parts| ==> sep !in parts[i]
    ensures Split(Join(parts, sep), sep) == parts
    decreases |parts|
  {
    SplitWithoutSeparator(parts[0], sep);
    if |parts| > 1 {
      SplitJoin(parts[1..], sep);
      SplitAtSeparator(parts[0], Join(parts[1..], sep), sep);
      assert [parts[0]] + parts[1..] == parts;
    }
  }

  /** The first piece is everything before the first separator. */
  lemma FirstPiece(head: string, rest: string, sep: char)
    requires sep !in head
    requires rest == [] || rest[0] == sep
    ensures Split(head + rest, sep)[0] == head
  {
    if rest == [] {
      assert head + rest == head;
      SplitWithoutSeparator(head, sep);
    } else {
      assert head + rest == head + [sep] + rest[1..];
      SplitAtSeparator(head, rest[1..], sep);
      SplitWithoutSeparator(head, sep);
    }
  }

  /** The last piece is everything after the last separator. */
  lemma LastPiece(front: string, tail: string, sep: char)
    requires sep !in tail
    requires front == [] || front[|front| - 1] == sep
    ensures var parts := Split(front + tail, sep); parts[|parts| - 1] == tail
  {
    SplitWithoutSeparator(tail, sep);
    if front == [] {
      assert front + tail == tail;
    } else {
      var before := front[..|front| - 1];
      assert front + tail == before + [sep] + tail;
      SplitAtSeparator(before, tail, sep);
    }
  }
}

=== FILE: wrappers.dfy ===
/** The optional value used where the C# controller holds a nullable reference. */
module Wrappers {

  /** `None` stands for a C# `null` reference, `Some(v)` for a live object. */
  datatype Option<+T> = None | Some(value: T)
}
